=== FILE: README.md ===
# GpuTimer and SampleStats

This is a Dafny model of the two profiling helpers in `samples/SimpleCpp` of the Assimp samples.

- **`SampleStats`** is a fixed-size rolling window of samples, with an average, a minimum and a maximum that are computed lazily.
  - `add` overwrites the oldest slot through a cursor that wraps lazily. That cursor ranges over `0..SIZE`.
  - `add` also sets a dirty flag.
  - `average`, `min` and `max` share one cached recomputation. It runs only while the flag is set.
- **`GpuTimer`** is a non-blocking GPU timer.
  - It keeps a pool of timestamp-query pairs across two FIFO queues: pairs in flight and freed pairs.
  - `start` reuses the oldest freed pair, or generates a new pair when none is free, and queues it as in flight.
  - `elapsed` closes the newest measurement and polls only the oldest one. If that result is ready, the pair is freed and its duration returned. Otherwise the result is 0.

The model has three modules:

- `SampleStatistics` (`sample_stats.dfy`):
  - a class over an `array<int>`;
  - a ghost history of every sample added;
  - an invariant tying the array to the last `size` samples, the cursor to the number of samples, and the cache to the statistics of the array.
- `GpuTiming` (`gpu_timer.dfy`):
  - a class whose two queues are `seq` fields;
  - ghost bookkeeping: the pool, the ids generated, the pairs started, the pairs retired, and the peak number in flight;
  - an invariant with three parts. First, pairs retire in the order they started. Second, the pool is the disjoint union of the queues, and its pairs are distinct and share no query id. Third, the number of pairs in the two queues equals the peak number ever in flight, so a new pair is generated only when every existing pair is in flight.
- `FrameProtocol` (`frame_protocol.dfy`): the frame function of the sample program, which runs once per frame: `start`, the timed draw call, then `add(elapsed())` into the statistics.

The graphics driver is represented by parameters:

- The ids that `glGenQueries` would return become a pair handed to `Start`. It must be fresh only when no freed pair can be reused, because only then is the generator called.
- The availability poll becomes an oracle `isReady: u32 -> bool`.
- Reading a timestamp becomes an oracle `timestamp: u32 -> u64`.

Two points of C++ semantics are written out:

- C++ `int` division truncates toward zero (`TruncDiv`).
- `GLuint64` subtraction wraps modulo 2^64 (`TimestampDiff`).

## Model

| member | source | states |
|---|---|---|
| SampleStatistics.TruncDiv | samples/SimpleCpp/GpuTimer.hpp:86 | The quotient is truncated toward zero: the remainder `a - q*d` has the sign of `a` and magnitude below `d`. |
| SampleStatistics.MinOf | samples/SimpleCpp/GpuTimer.hpp:78-84 | The running minimum of the scan is one of the samples and is at most every sample. |
| SampleStatistics.MaxOf | samples/SimpleCpp/GpuTimer.hpp:79-84 | The running maximum of the scan is one of the samples and is at least every sample. |
| SampleStatistics.ScanStep | samples/SimpleCpp/GpuTimer.hpp:80-85 | One loop iteration extends the running sum, minimum and maximum of a prefix by the next sample, with strict comparisons as in the source. |
| SampleStatistics.Cursor | samples/SimpleCpp/GpuTimer.hpp:46-49 | After `count` adds the cursor lies in `0..size`. It is 0 before the first add and at least 1 once a sample was added. Wrapped to 0 when equal to `size`, it is `count % size`, the slot of the next write. |
| SampleStatistics.WindowHoldsSamples | samples/SimpleCpp/GpuTimer.hpp:41-51 | Every slot of the window (`Window`: zero-initialised, sample `j` written into slot `j % size`) holds its initial zero or one of the samples added. |
| SampleStatistics.SumConcat | samples/SimpleCpp/GpuTimer.hpp:80-82 | The sum accumulated over the samples (`Sum`) of two runs one after the other is the sum of their sums. |
| SampleStatistics.AverageRemainder | samples/SimpleCpp/GpuTimer.hpp:86 | The average (`AverageOf`, the sum divided by the window size) shares the sum out evenly: the remainder has the sum's sign and magnitude below the number of samples. |
| SampleStatistics.WindowKeepsRecent | samples/SimpleCpp/GpuTimer.hpp:43-51 | Each of the last `size` samples added is still in the window, at slot `j % size`: `add` evicts exactly the oldest sample. |
| SampleStatistics.WindowZeroUntilFilled | samples/SimpleCpp/GpuTimer.hpp:39-41 | Until the window is filled once, the slots not yet written still hold the initial zero. This is why the statistics are meaningless before then. |
| SampleStatistics.SumAtLeast | samples/SimpleCpp/GpuTimer.hpp:80-82 | If every sample is at least `lo`, the accumulated sum is at least `n * lo`. |
| SampleStatistics.SumAtMost | samples/SimpleCpp/GpuTimer.hpp:80-82 | If every sample is at most `hi`, the accumulated sum is at most `n * hi`. |
| SampleStatistics.AverageBetweenMinMax | samples/SimpleCpp/GpuTimer.hpp:75-88 | The truncated average lies between the minimum and the maximum, so the three cached statistics are consistent with each other. |
| SampleStatistics.SampleStats.constructor | samples/SimpleCpp/GpuTimer.hpp:41 | `size` slots, all zero; cursor 0; recomputation pending; no samples yet; invariant established. |
| SampleStatistics.SampleStats.Add | samples/SimpleCpp/GpuTimer.hpp:44-51 | Writes `value` at the old cursor, or at slot 0 when the cursor was `size`, and leaves every other slot unchanged. The cursor becomes that slot plus one, in `1..size`. Sets `recomputeNeeded` and leaves the cache alone. The window invariant is kept. |
| SampleStatistics.SampleStats.RecomputeStats | samples/SimpleCpp/GpuTimer.hpp:75-88 | After the scan, the cached average is the truncated sum divided by `size`, and the cached minimum and maximum are those of the samples. Clears `recomputeNeeded`. Leaves the samples and the cursor unchanged. |
| SampleStatistics.SampleStats.Average | samples/SimpleCpp/GpuTimer.hpp:53-58 | Returns the average of the current samples. Recomputes only when the flag was set; otherwise the cache is untouched. |
| SampleStatistics.SampleStats.Min | samples/SimpleCpp/GpuTimer.hpp:60-65 | Returns the minimum of the current samples. Recomputes only when the flag was set. |
| SampleStatistics.SampleStats.Max | samples/SimpleCpp/GpuTimer.hpp:67-72 | Returns the maximum of the current samples. Recomputes only when the flag was set. |
| SampleStatistics.RepeatedReads | samples/SimpleCpp/GpuTimer.hpp:53-72 | Reading the three statistics twice with no `add` between gives the same values, with min ≤ avg ≤ max. Samples, cursor and history are untouched. |
| SampleStatistics.Report | samples/SimpleCpp/Sample.cpp:87-89 | Reading average, minimum and maximum in turn, as the periodic log does, returns the statistics of the current samples. |
| SampleStatistics.ThreeSampleWindow | samples/SimpleCpp/GpuTimer.hpp:43-51 | With a window of 3, adding 1, 2, 3 gives average 2, min 1, max 3. Adding 10 then overwrites slot 0 and gives 5, 2, 10. |
| GpuTiming.TimestampDiff | samples/SimpleCpp/GpuTimer.cpp:50-53 | The difference is the unsigned 64-bit `end - start`: adding it to `start` modulo 2^64 gives `end`, and when `start <= end` it is the plain difference. |
| GpuTiming.GpuTimer.constructor | samples/SimpleCpp/GpuTimer.hpp:30-31 | Both queues are empty, nothing is generated, and the invariant holds. |
| GpuTiming.GpuTimer.Start | samples/SimpleCpp/GpuTimer.cpp:6-18 | The offered pair must be fresh only when no pair is free. With no free pair, the fresh pair is appended to the in-flight queue and joins the pool. Otherwise the front free pair is removed and appended to the in-flight queue, and the pool is unchanged. In both cases the pushed pair is recorded as started, and the invariant is kept. |
| GpuTiming.GpuTimer.Elapsed | samples/SimpleCpp/GpuTimer.cpp:31-58 | Needs a pair in flight. With one pair in flight, or an oldest pair not ready, it returns 0 and changes nothing. Otherwise it moves exactly the oldest pair from the front of the in-flight queue to the back of the free queue, records it as retired, and returns its wrapped timestamp difference. The pool is conserved, the newest pair stays in flight, and the invariant is kept. |
| GpuTiming.AllocateKeepsPool | samples/SimpleCpp/GpuTimer.cpp:9-12 | Adding a freshly generated pair keeps the pool free of duplicates and of shared ids. |
| GpuTiming.RotateKeepsMultiset | samples/SimpleCpp/GpuTimer.cpp:14-18 | Moving the front of one queue to the back of the other conserves the multiset of pairs. |
| GpuTiming.NoPairInBothQueues | samples/SimpleCpp/GpuTimer.hpp:30-31 | In every timer state that satisfies the invariant, a pair in flight is not also in the free queue. |
| GpuTiming.InflightShareNoId | samples/SimpleCpp/GpuTimer.cpp:43-52 | Two measurements in flight at once share no query id, so each timestamp read belongs to exactly one measurement. |
| FrameProtocol.Display | samples/SimpleCpp/Sample.cpp:80-82 | One frame of `start`, draw, `add(elapsed())` adds exactly the returned duration to the statistics and marks them for recomputation. The frame starts the oldest free pair, or the offered pair when none is free; reusing a pair generates no id and leaves the peak unchanged. If a measurement was open before the frame and its end query is ready, that oldest measurement is retired and its duration returned. Otherwise nothing is retired and 0 is returned. The first frame reports 0. With a prompt GPU and at most one measurement in flight before the frame, only the frame's own measurement stays in flight and the peak is at most the larger of 2 and its earlier value. |
| FrameProtocol.RunFrames | samples/SimpleCpp/Sample.cpp:74-93 | Over a sequence of frames, the statistics receive exactly the returned durations, in order. One measurement starts per frame. With no measurement open at the start, the first frame reports 0; with no pair at all, the first frame starts its own offered pair. If the GPU is always prompt and at most one measurement is open at the start, the peak stays at most the larger of 2 and its earlier value, so a new timer never generates more than two pairs. With no measurement open at the start, every frame after the first then reports the duration of the measurement started in the frame before it, read with that frame's timestamps. |
| FrameProtocol.NextFrame | samples/SimpleCpp/Sample.cpp:80-82 | One frame of the render loop keeps the record of the run: results added in order, one pair started, ids drawn only from the frames, and, for a prompt run, one measurement in flight and the previous frame's duration reported. |
| FrameProtocol.ReportsPreviousAt | samples/SimpleCpp/Sample.cpp:80-82 | Unfolds the in-order reporting of `RunFrames` for one frame `k`: its result is the duration of the pair started in frame `k - 1`. |
| FrameProtocol.ReportsPreviousStep | samples/SimpleCpp/Sample.cpp:80-82 | Appending a frame whose result is the duration of the previous frame's measurement extends the in-order reporting by one frame. |

## Left out

- The OpenGL calls are not modelled as behaviour. `glGenQueries` is a fresh pair parameter. `glGetQueryObjectuiv` is the `isReady` oracle. `glGetQueryObjectui64v` is the `timestamp` oracle.
- `glQueryCounter` is not modelled, because it only asks the GPU to write a timestamp that the oracle later returns.
- The fence at `GpuTimer.cpp:24-26` (`glFenceSync`, `glWaitSync`, `glDeleteSync`) is not modelled, because it only orders GPU execution and changes no state.
- GpuTiming.GpuTimer.Elapsed: returns the unsigned 64-bit nanosecond difference, not the `double` milliseconds of `GpuTimer.cpp:53`. The floating-point scaling is not modelled.
- The timing between CPU and GPU is not modelled. Whether a result is ready is whatever the oracle says at the poll.
- `SampleStats` is modelled with `T = int` only. Float samples are not modelled.
- SampleStatistics.SampleStats.RecomputeStats: the sum is an unbounded integer, so overflow of `T` while summing is not modelled.
- SampleStatistics.SampleStats.constructor: `SIZE` is a constructor argument required to be positive, not a template parameter with default 50. With `SIZE == 0` the C++ reads `data[0]` and divides by zero.
- Before the first recomputation the C++ leaves `cachedAvg`, `cachedMin` and `cachedMax` uninitialised. The model leaves them unconstrained and never reads them while `recomputeNeeded` is set.
- Of `Sample.cpp`, only the timing lines of `display()` are modelled (lines 80-82, run once per frame through the idle callback registered at line 48). Window setup, mesh import, shaders, the clear and swap calls, and the counter that logs every 1000 frames (lines 84-90) are not part of this model. `Report` models only the three reads of that log.
- `Sample.cpp` instantiates `SampleStats<float, 1000>` and adds the `double` milliseconds returned by `elapsed`. The model feeds the integer nanoseconds into a `SampleStats` over `int`, because floating point is not modelled.
- FrameProtocol.RunFrames: each frame still offers a pair that is fresh with respect to every pair offered before, even in frames that reuse a freed pair. With 32-bit ids, a run is therefore limited to about 2^31 frames, while the C++ loop can run forever on two reused pairs. `Start` and `Display` themselves demand a fresh pair only when they allocate one.

=== FILE: frame_protocol.dfy ===
/** The render loop's use of the two components: every frame opens a timer
    measurement, issues the draw call, closes the measurement and feeds the
    returned duration into the rolling statistics. */
module FrameProtocol {
  import opened GpuTiming
  import opened SampleStatistics

  /** What the graphics driver contributes to one frame: the pair its id
      generator would hand out, whether a query's result is ready when polled,
      and the timestamps it reads back. */
  datatype FrameInput = FrameInput(newPair: QueryPair, isReady: u32 -> bool, timestamp: u32 -> u64)

  /** The ids of the pairs offered in `frames`. */
  function OfferedIds(frames: seq<FrameInput>): (r: set<u32>)
  {
    if frames == [] then {} else OfferedIds(frames[..|frames| - 1]) + PairIds(frames[|frames| - 1].newPair)
  }

  /** The ids of the pairs offered before frame `i`. */
  function OfferedBefore(frames: seq<FrameInput>, i: nat): (r: set<u32>)
    requires i <= |frames|
  {
    OfferedIds(frames[..i])
  }

  lemma OfferedBeforeStep(frames: seq<FrameInput>, i: nat)
    requires i < |frames|
    ensures OfferedBefore(frames, i + 1) == OfferedBefore(frames, i) + PairIds(frames[i].newPair)
  {
    assert frames[..i + 1][..i] == frames[..i];
  }

  /** The id generator never hands out an id twice: each frame's pair is fresh
      with respect to `ids` and to the pairs of the frames before it. */
  predicate FreshSupply(frames: seq<FrameInput>, ids: set<u32>)
  {
    forall i {:trigger OfferedBefore(frames, i)} | 0 <= i < |frames| ::
      FreshFor(frames[i].newPair, ids + OfferedBefore(frames, i))
  }

  /** In this frame the GPU has every polled result ready. */
  ghost predicate Prompt(input: FrameInput)
  {
    forall q :: input.isReady(q)
  }

  /** The GPU never lags a frame behind. */
  ghost predicate AlwaysPrompt(frames: seq<FrameInput>)
  {
    forall i | 0 <= i < |frames| :: Prompt(frames[i])
  }

  function AsSamples(ds: seq<u64>): (s: seq<int>)
  {
    seq(|ds|, k requires 0 <= k < |ds| => ds[k] as int)
  }

  lemma AsSamplesStep(h: seq<int>, ds: seq<u64>, d: u64)
    ensures h + AsSamples(ds + [d]) == (h + AsSamples(ds)) + [d as int]
  {
    assert AsSamples(ds + [d]) == AsSamples(ds) + [d as int];
  }

  /** One more frame's ids stay within the ids known at the start and those offered so far. */
  lemma IdsStep(ids0: set<u32>, offered: set<u32>, ids: set<u32>, offered': set<u32>, ids': set<u32>, added: set<u32>)
    requires ids <= ids0 + offered && ids' <= ids + added && offered' == offered + added
    ensures ids' <= ids0 + offered'
  {
  }

  /** One more frame's start extends the run's starts. */
  lemma StartsStep(started0: seq<QueryPair>, starts: seq<QueryPair>, started': seq<QueryPair>, p: QueryPair)
    requires started' == (started0 + starts) + [p]
    ensures started' == started0 + (starts + [p])
  {
  }

  /** The duration measured by `p`, from the timestamps read in `input`'s frame. */
  function Measured(input: FrameInput, p: QueryPair): (d: u64)
    ensures (input.timestamp(p.startQuery) as int + d as int) % TWO_TO_64 == input.timestamp(p.endQuery) as int
  {
    TimestampDiff(input.timestamp(p.startQuery), input.timestamp(p.endQuery))
  }

  /** Frame `k` reported the measurement started in the frame before it;
      `starts` holds the pair each frame started. */
  ghost predicate ReportedPrevious(results: seq<u64>, frames: seq<FrameInput>, starts: seq<QueryPair>, k: nat)
  {
    1 <= k < |results| && k < |frames| && k <= |starts| &&
    results[k] == Measured(frames[k], starts[k - 1])
  }

  /** Each of the first `n` frames but the first reported the measurement
      started in the frame before it. */
  ghost predicate ReportsPrevious(results: seq<u64>, frames: seq<FrameInput>, starts: seq<QueryPair>, n: nat)
  {
    forall k {:trigger ReportedPrevious(results, frames, starts, k)} | 1 <= k < n ::
      ReportedPrevious(results, frames, starts, k)
  }

  /** What `ReportsPrevious` says about one frame. */
  lemma ReportsPreviousAt(results: seq<u64>, frames: seq<FrameInput>, starts: seq<QueryPair>, n: nat, k: nat)
    requires ReportsPrevious(results, frames, starts, n)
    requires 1 <= k < n <= |results| && n <= |frames| && n <= |starts| + 1
    ensures results[k] == Measured(frames[k], starts[k - 1])
  {
    assert ReportedPrevious(results, frames, starts, k);
  }

  lemma ReportsPreviousStep(results: seq<u64>, frames: seq<FrameInput>, starts: seq<QueryPair>, p: QueryPair, d: u64)
    requires ReportsPrevious(results, frames, starts, |results|)
    requires |results| < |frames| && |results| == |starts|
    requires |results| > 0 ==> d == Measured(frames[|results|], starts[|results| - 1])
    ensures ReportsPrevious(results + [d], frames, starts + [p], |results| + 1)
  {
    forall k | 1 <= k < |results| + 1
      ensures ReportedPrevious(results + [d], frames, starts + [p], k)
    {
      if k < |results| {
        assert ReportedPrevious(results, frames, starts, k);
      }
    }
  }

  /** One frame: start, draw, add(elapsed()). The duration added is 0 unless
      the oldest measurement still open is retired, and then it is that
      measurement's. */
  method Display(timer: GpuTimer, stats: SampleStats, input: FrameInput) returns (d: u64)
    requires timer.Valid() && stats.Valid()
    requires timer.availablePairs == [] ==> FreshFor(input.newPair, timer.ids)
    modifies timer, stats, stats.data
    ensures timer.Valid() && stats.Valid()
    ensures stats.history == old(stats.history) + [d as int]
    ensures stats.recomputeNeeded
    // The frame starts the oldest free pair, or the offered one when none is free.
    ensures timer.started == old(timer.started) +
              [if old(timer.availablePairs) == [] then input.newPair else old(timer.availablePairs)[0]]
    ensures timer.ids <= old(timer.ids) + PairIds(input.newPair)
    ensures old(timer.availablePairs) != [] ==> timer.ids == old(timer.ids) && timer.peakInflight == old(timer.peakInflight)
    ensures |timer.inflightPairs| >= 1
    // Which of the two happens is decided by the oldest open measurement alone.
    ensures old(timer.inflightPairs) != [] && input.isReady(old(timer.inflightPairs)[0].endQuery) ==>
              var qp := old(timer.inflightPairs)[0];
              && timer.finished == old(timer.finished) + [qp]
              && d == TimestampDiff(input.timestamp(qp.startQuery), input.timestamp(qp.endQuery))
    ensures old(timer.inflightPairs) == [] || !input.isReady(old(timer.inflightPairs)[0].endQuery) ==>
              timer.finished == old(timer.finished) && d == 0
    // Nothing is reported in the frame that opens the first measurement.
    ensures old(timer.inflightPairs) == [] ==> d == 0
    ensures timer.peakInflight <= old(timer.peakInflight) + 1
    ensures Prompt(input) && |old(timer.inflightPairs)| <= 1 ==>
              && timer.inflightPairs == [timer.started[|timer.started| - 1]]
              && timer.peakInflight <= if old(timer.peakInflight) < 2 then 2 else old(timer.peakInflight)
  {
    timer.Start(input.newPair);
    if Prompt(input) {
      assert input.isReady(timer.inflightPairs[0].endQuery);
    }
    // The timed draw call is issued here.
    d := timer.Elapsed(input.isReady, input.timestamp);
    stats.Add(d as int);
    if |timer.finished| != |old(timer.finished)| {
      assert input.isReady(old(timer.started)[|old(timer.finished)|].endQuery);
    }
  }

  /** What a run of the render loop started from: the timer's started pairs
      and ids, the statistics' history, whether no measurement (`fromEmpty`)
      or no pair at all (`fromIdle`) was in flight or free, whether the GPU is
      prompt in every frame with at most one measurement open (`prompt`), and
      the bound on the peak that a prompt run keeps (`bound`). */
  datatype RunStart = RunStart(started: seq<QueryPair>, ids: set<u32>, history: seq<int>,
                               fromEmpty: bool, fromIdle: bool, prompt: bool, bound: nat)

  /** The first `i` frames of `frames` have run from `run`, returning
      `results` and starting the pairs `starts`. */
  ghost predicate RunSoFar(timer: GpuTimer, stats: SampleStats, frames: seq<FrameInput>, run: RunStart, i: nat,
                           results: seq<u64>, starts: seq<QueryPair>)
    reads timer, stats, stats.data
  {
    && i <= |frames|
    && timer.Valid() && stats.Valid()
    && RunLog(timer, stats, frames, run, i, results, starts)
    && RunFirst(timer, frames, run, i, results, starts)
    && RunPrompt(timer, frames, run, i, results, starts)
  }

  /** Every result was added to the statistics, each frame started one pair,
      and the ids in use come from the start or from the frames run. */
  ghost predicate RunLog(timer: GpuTimer, stats: SampleStats, frames: seq<FrameInput>, run: RunStart, i: nat,
                         results: seq<u64>, starts: seq<QueryPair>)
    requires i <= |frames|
    reads timer, stats
  {
    && FreshSupply(frames, run.ids)
    && |results| == i && |starts| == i
    && stats.history == run.history + AsSamples(results)
    && timer.ids <= run.ids + OfferedBefore(frames, i)
    && timer.started == run.started + starts
  }

  /** From an empty timer the first result is 0; from an idle one the first
      pair started is the first frame's own. */
  ghost predicate RunFirst(timer: GpuTimer, frames: seq<FrameInput>, run: RunStart, i: nat,
                           results: seq<u64>, starts: seq<QueryPair>)
    reads timer
  {
    && (i == 0 ==> run.fromEmpty == (timer.inflightPairs == []))
    && (i == 0 ==> run.fromIdle == (timer.inflightPairs == [] && timer.availablePairs == []))
    && (run.fromEmpty && 0 < i <= |results| ==> results[0] == 0)
    && (run.fromIdle && 0 < i <= |starts| && 0 < |frames| ==> starts[0] == frames[0].newPair)
  }

  /** A prompt run keeps at most one pair in flight, and from an empty timer
      each frame after the first reported the measurement of the one before
      it. */
  ghost predicate RunPrompt(timer: GpuTimer, frames: seq<FrameInput>, run: RunStart, i: nat,
                            results: seq<u64>, starts: seq<QueryPair>)
    reads timer
  {
    && (run.prompt ==> AlwaysPrompt(frames) && |timer.inflightPairs| <= 1 && 2 <= run.bound && timer.peakInflight <= run.bound)
    && (run.fromEmpty && run.prompt && 0 < i <= |starts| ==> timer.inflightPairs == [starts[i - 1]])
    && (run.fromEmpty && run.prompt ==> ReportsPrevious(results, frames, starts, i))
  }

  /** One iteration of the render loop: `Display` on frame `i`, keeping the
      record of the run up to date. */
  method NextFrame(timer: GpuTimer, stats: SampleStats, frames: seq<FrameInput>, ghost run: RunStart, i: nat,
                   results: seq<u64>, ghost starts: seq<QueryPair>)
    returns (results': seq<u64>, ghost starts': seq<QueryPair>)
    requires i < |frames| && RunSoFar(timer, stats, frames, run, i, results, starts)
    modifies timer, stats, stats.data
    ensures RunSoFar(timer, stats, frames, run, i + 1, results', starts')
  {
    var input := frames[i];
    assert FreshFor(input.newPair, run.ids + OfferedBefore(frames, i));
    ghost var p := if timer.availablePairs == [] then input.newPair else timer.availablePairs[0];
    ghost var idsBefore := timer.ids;
    var d := Display(timer, stats, input);
    StartsStep(run.started, starts, timer.started, p);
    OfferedBeforeStep(frames, i);
    IdsStep(run.ids, OfferedBefore(frames, i), idsBefore, OfferedBefore(frames, i + 1), timer.ids, PairIds(input.newPair));
    AsSamplesStep(run.history, results, d);
    assert run.fromEmpty ==> (results + [d])[0] == 0;
    if run.fromEmpty && run.prompt {
      ReportsPreviousStep(results, frames, starts, p, d);
    }
    results' := results + [d];
    starts' := starts + [p];
  }

  /** The render loop over a sequence of frames: every duration returned is
      added to the statistics, and one measurement is opened per frame. If
      the GPU always has the polled result ready and at most one measurement
      is open at the start, the peak number of pairs in flight stays at most
      the larger of 2 and its earlier value. From an empty timer, each frame
      after the first then reports the measurement opened in the frame before
      it. */
  method RunFrames(timer: GpuTimer, stats: SampleStats, frames: seq<FrameInput>) returns (results: seq<u64>)
    requires timer.Valid() && stats.Valid()
    requires FreshSupply(frames, timer.ids)
    modifies timer, stats, stats.data
    ensures timer.Valid() && stats.Valid()
    ensures |results| == |frames|
    ensures stats.history == old(stats.history) + AsSamples(results)
    ensures |timer.started| == |old(timer.started)| + |frames|
    ensures old(timer.started) <= timer.started
    ensures old(timer.inflightPairs) == [] && |frames| > 0 ==> results[0] == 0
    // An idle timer starts the first frame's own pair.
    ensures old(timer.inflightPairs) == [] && old(timer.availablePairs) == [] && |frames| > 0 ==>
              timer.started[|old(timer.started)|] == frames[0].newPair
    ensures AlwaysPrompt(frames) && |old(timer.inflightPairs)| <= 1 ==>
              timer.peakInflight <= if old(timer.peakInflight) < 2 then 2 else old(timer.peakInflight)
    ensures AlwaysPrompt(frames) && old(timer.inflightPairs) == [] ==>
              ReportsPrevious(results, frames, timer.started[|old(timer.started)|..], |frames|)
  {
    results := [];
    ghost var run := RunStart(timer.started, timer.ids, stats.history,
                              timer.inflightPairs == [], timer.inflightPairs == [] && timer.availablePairs == [],
                              AlwaysPrompt(frames) && |timer.inflightPairs| <= 1,
                              if timer.peakInflight < 2 then 2 else timer.peakInflight);
    // The pairs started by the frames run so far, in order.
    ghost var starts: seq<QueryPair> := [];
    for i := 0 to |frames|
      invariant RunSoFar(timer, stats, frames, run, i, results, starts)
    {
      results, starts := NextFrame(timer, stats, frames, run, i, results, starts);
    }
    assert timer.started[|old(timer.started)|..] == starts;
  }
}

=== FILE: gpu_timer.dfy ===
/** A non-blocking GPU timer: a pool of timestamp-query pairs that move between
    a FIFO of pairs in flight and a FIFO of freed pairs. The graphics calls are
    replaced by their observable effect: query-id generation becomes a fresh
    pair handed in by the caller, the result-availability poll becomes the
    oracle `isReady`, and reading a result becomes the oracle `timestamp`. */
module GpuTiming {

  newtype u32 = x: int | 0 <= x < 0x1_0000_0000
  newtype u64 = x: int | 0 <= x < 0x1_0000_0000_0000_0000

  const TWO_TO_64: int := 0x1_0000_0000_0000_0000

  /** Two query ids: the one stamped by `Start` and the one stamped by `Elapsed`. */
  datatype QueryPair = QueryPair(startQuery: u32, endQuery: u32)

  function PairIds(p: QueryPair): (r: set<u32>)
  {
    {p.startQuery, p.endQuery}
  }

  /** `p` is what two calls to the id generator can return: two distinct ids,
      neither of them generated before. */
  predicate FreshFor(p: QueryPair, ids: set<u32>)
  {
    p.startQuery != p.endQuery && p.startQuery !in ids && p.endQuery !in ids
  }

  /** `p` belongs to `pool`. The quantifiers over the pool below fire only
      on this term, which keeps them out of proofs that do not mention it. */
  predicate InPool(pool: multiset<QueryPair>, p: QueryPair)
  {
    p in pool
  }

  predicate SharesNoId(p: QueryPair, q: QueryPair)
  {
    && p.startQuery != q.startQuery && p.startQuery != q.endQuery
    && p.endQuery != q.startQuery && p.endQuery != q.endQuery
  }

  /** No pair occurs twice in the pool, different pairs share no query id,
      and every pair uses two distinct ids taken from `ids`. */
  ghost predicate PoolWellFormed(pool: multiset<QueryPair>, ids: set<u32>)
  {
    && (forall p {:trigger InPool(pool, p)} | InPool(pool, p) ::
          && pool[p] == 1
          && p.startQuery != p.endQuery && p.startQuery in ids && p.endQuery in ids)
    && (forall p, q {:trigger InPool(pool, p), InPool(pool, q)} | InPool(pool, p) && InPool(pool, q) && p != q ::
          SharesNoId(p, q))
  }

  /** The timer's invariant over its queues and its bookkeeping, stated on
      the values of its fields so that lemmas can speak about any timer state. */
  ghost predicate TimerInvariant(inflight: seq<QueryPair>, available: seq<QueryPair>, pool: multiset<QueryPair>,
                                 ids: set<u32>, started: seq<QueryPair>, finished: seq<QueryPair>, peak: nat)
  {
    // Pairs retire in the order they were started.
    && started == finished + inflight
    // Each pair of the pool is in exactly one of the two queues.
    && pool == multiset(inflight) + multiset(available)
    && PoolWellFormed(pool, ids)
    // A pair is generated only when every existing pair is in flight.
    && |inflight| + |available| == peak
  }

  /** The nanoseconds between two 64-bit GPU timestamps, computed as unsigned
      64-bit subtraction, which wraps around when `endTime < startTime`. */
  function TimestampDiff(startTime: u64, endTime: u64): (d: u64)
    ensures (startTime as int + d as int) % TWO_TO_64 == endTime as int
    ensures startTime <= endTime ==> d == endTime - startTime
  {
    var diff := endTime as int - startTime as int;
    if diff >= 0 then diff as u64 else (diff + TWO_TO_64) as u64
  }

  /** A pair that is in flight is not also free. */
  lemma NoPairInBothQueues(inflight: seq<QueryPair>, available: seq<QueryPair>, pool: multiset<QueryPair>, ids: set<u32>,
                            started: seq<QueryPair>, finished: seq<QueryPair>, peak: nat, p: QueryPair)
    requires TimerInvariant(inflight, available, pool, ids, started, finished, peak)
    requires p in inflight
    ensures p !in available
  {
    assert p in multiset(inflight);
    assert InPool(pool, p);
    assert p in available ==> pool[p] >= 2;
  }

  class GpuTimer {
    /** Pairs whose start query was stamped, oldest first. */
    var inflightPairs: seq<QueryPair>
    /** Pairs whose result was consumed, ready for reuse. */
    var availablePairs: seq<QueryPair>

    /** Every pair generated so far, in flight or free. */
    ghost var pool: multiset<QueryPair>
    /** Every query id generated so far. */
    ghost var ids: set<u32>
    /** Every pair pushed onto `inflightPairs`, in push order. */
    ghost var started: seq<QueryPair>
    /** Every pair retired from `inflightPairs`, in retirement order. */
    ghost var finished: seq<QueryPair>
    /** The largest number of pairs ever in flight at once. */
    ghost var peakInflight: nat

    ghost predicate Valid()
      reads this
    {
      TimerInvariant(inflightPairs, availablePairs, pool, ids, started, finished, peakInflight)
    }

    /** A timer with an empty pool. */
    constructor ()
      ensures Valid()
      ensures inflightPairs == [] && availablePairs == []
      ensures pool == multiset{} && ids == {} && started == [] && finished == [] && peakInflight == 0
    {
      inflightPairs := [];
      availablePairs := [];
      pool := multiset{};
      ids := {};
      started := [];
      finished := [];
      peakInflight := 0;
    }

    /** Opens a measurement: reuses the oldest free pair, or the freshly
        generated `newPair` when no pair is free, and queues it as in flight. */
    method Start(newPair: QueryPair)
      requires Valid()
      // The id generator is called only when no freed pair can be reused.
      requires availablePairs == [] ==> FreshFor(newPair, ids)
      modifies this
      ensures Valid()
      ensures old(availablePairs) == [] ==>
                && inflightPairs == old(inflightPairs) + [newPair]
                && availablePairs == []
                && pool == old(pool) + multiset{newPair}
                && ids == old(ids) + PairIds(newPair)
      ensures old(availablePairs) != [] ==>
                && inflightPairs == old(inflightPairs) + [old(availablePairs)[0]]
                && availablePairs == old(availablePairs)[1..]
                && pool == old(pool)
                && ids == old(ids)
      ensures started == old(started) + [inflightPairs[|inflightPairs| - 1]]
      ensures finished == old(finished)
      ensures peakInflight == if |inflightPairs| > old(peakInflight) then |inflightPairs| else old(peakInflight)
    {
      var qp: QueryPair;
      if availablePairs == [] {
        // Generate a new pair of query ids.
        qp := newPair;
        AllocateKeepsPool(pool, ids, newPair);
        pool := pool + multiset{newPair};
        ids := ids + PairIds(newPair);
        peakInflight := peakInflight + 1;
      } else {
        // Reuse the oldest free pair.
        qp := availablePairs[0];
        RotateKeepsMultiset(availablePairs, inflightPairs);
        availablePairs := availablePairs[1..];
      }
      inflightPairs := inflightPairs + [qp];
      started := started + [qp];
    }

    /** Closes the newest measurement and polls the oldest one. If the oldest
        pair is not the one just closed and its end query is ready, it is
        freed and its duration in nanoseconds is returned; otherwise the
        result is 0 and nothing moves. */
    method Elapsed(isReady: u32 -> bool, timestamp: u32 -> u64) returns (d: u64)
      requires Valid()
      requires |inflightPairs| > 0
      modifies this
      ensures Valid()
      ensures pool == old(pool) && ids == old(ids) && started == old(started) && peakInflight == old(peakInflight)
      ensures |old(inflightPairs)| == 1 || !isReady(old(inflightPairs)[0].endQuery) ==>
                && d == 0
                && inflightPairs == old(inflightPairs)
                && availablePairs == old(availablePairs)
                && finished == old(finished)
      ensures |old(inflightPairs)| > 1 && isReady(old(inflightPairs)[0].endQuery) ==>
                var qp := old(inflightPairs)[0];
                && d == TimestampDiff(timestamp(qp.startQuery), timestamp(qp.endQuery))
                && inflightPairs == old(inflightPairs)[1..]
                && availablePairs == old(availablePairs) + [qp]
                && finished == old(finished) + [qp]
      // The pair just closed stays in flight.
      ensures |inflightPairs| > 0 && inflightPairs[|inflightPairs| - 1] == old(inflightPairs)[|old(inflightPairs)| - 1]
    {
      if |inflightPairs| == 1 {
        return 0;
      }
      var qp := inflightPairs[0];
      if isReady(qp.endQuery) {
        RotateKeepsMultiset(inflightPairs, availablePairs);
        assert finished + inflightPairs == (finished + [qp]) + inflightPairs[1..];
        availablePairs := availablePairs + [qp];
        inflightPairs := inflightPairs[1..];
        finished := finished + [qp];
        var startTime := timestamp(qp.startQuery);
        var endTime := timestamp(qp.endQuery);
        return TimestampDiff(startTime, endTime);
      }
      return 0;
    }
  }

  /** Two measurements in flight at once never share a query id, so every
      timestamp read back belongs to exactly one measurement. */
  lemma InflightShareNoId(inflight: seq<QueryPair>, available: seq<QueryPair>, pool: multiset<QueryPair>, ids: set<u32>,
                           started: seq<QueryPair>, finished: seq<QueryPair>, peak: nat, i: nat, j: nat)
    requires TimerInvariant(inflight, available, pool, ids, started, finished, peak)
    requires i < j < |inflight|
    ensures SharesNoId(inflight[i], inflight[j])
  {
    var p, q := inflight[i], inflight[j];
    // If p were q, it would count twice in the pool: once before j, once from j on.
    assert inflight == inflight[..j] + inflight[j..];
    assert p in inflight[..j] && q in inflight[j..];
    assert InPool(pool, p) && InPool(pool, q);
  }

  /** Moving the front of one queue to the back of the other leaves the
      multiset of their pairs unchanged. */
  lemma RotateKeepsMultiset(from: seq<QueryPair>, to: seq<QueryPair>)
    requires |from| > 0
    ensures from == [from[0]] + from[1..]
    ensures multiset(from[1..]) + multiset(to + [from[0]]) == multiset(from) + multiset(to)
    ensures multiset(to + [from[0]]) + multiset(from[1..]) == multiset(to) + multiset(from)
  {
    assert from == [from[0]] + from[1..];
  }

  /** Adding a freshly generated pair keeps the pool well formed. */
  lemma AllocateKeepsPool(pool: multiset<QueryPair>, ids: set<u32>, newPair: QueryPair)
    requires PoolWellFormed(pool, ids)
    requires FreshFor(newPair, ids)
    ensures PoolWellFormed(pool + multiset{newPair}, ids + PairIds(newPair))
  {
    assert !InPool(pool, newPair);
    var pool' := pool + multiset{newPair};
    var ids' := ids + PairIds(newPair);
    forall p | InPool(pool', p)
      ensures pool'[p] == 1 && p.startQuery != p.endQuery && p.startQuery in ids' && p.endQuery in ids'
    {
      if p != newPair {
        assert InPool(pool, p);
      }
    }
    forall p, q | InPool(pool', p) && InPool(pool', q) && p != q
      ensures SharesNoId(p, q)
    {
      if p != newPair && q != newPair {
        assert InPool(pool, p) && InPool(pool, q);
      } else if p != newPair {
        assert InPool(pool, p);
      } else if q != newPair {
        assert InPool(pool, q);
      }
    }
  }
}

=== FILE: sample_stats.dfy ===
/** A fixed-size rolling window of integer samples whose average, minimum and
    maximum are recomputed lazily, only when a sample was added since the last
    recomputation. The element type is instantiated with `int`; the window size
    is a constructor parameter. */
module SampleStatistics {

  /** Integer division as C++ performs it on `int`: the quotient is truncated
      toward zero, so the remainder has the sign of the dividend. */
  function TruncDiv(a: int, d: int): (q: int)
    requires d > 0
    ensures a >= 0 ==> 0 <= a - q * d < d
    ensures a < 0 ==> -d < a - q * d <= 0
  {
    if a >= 0 then a / d else -((-a) / d)
  }

  /** The sum of the samples, accumulated from the first to the last. */
  function Sum(s: seq<int>): (r: int)
  {
    if s == [] then 0 else Sum(s[..|s| - 1]) + s[|s| - 1]
  }

  /** The running minimum of a scan that starts at `s[0]` and replaces the
      candidate by every strictly smaller sample. */
  function MinOf(s: seq<int>): (m: int)
    requires |s| > 0
    ensures m in s
    ensures forall k | 0 <= k < |s| :: m <= s[k]
  {
    if |s| == 1 then s[0]
    else
      var m := MinOf(s[..|s| - 1]);
      assert forall k | 0 <= k < |s| - 1 :: s[..|s| - 1][k] == s[k];
      if s[|s| - 1] < m then s[|s| - 1] else m
  }

  /** The running maximum of a scan that starts at `s[0]` and replaces the
      candidate by every strictly greater sample. */
  function MaxOf(s: seq<int>): (m: int)
    requires |s| > 0
    ensures m in s
    ensures forall k | 0 <= k < |s| :: s[k] <= m
  {
    if |s| == 1 then s[0]
    else
      var m := MaxOf(s[..|s| - 1]);
      assert forall k | 0 <= k < |s| - 1 :: s[..|s| - 1][k] == s[k];
      if m < s[|s| - 1] then s[|s| - 1] else m
  }

  /** Summing two runs of samples one after the other gives the sum of their
      sums: the left-to-right accumulation does not depend on where it is
      split. */
  lemma {:induction false} SumConcat(s: seq<int>, t: seq<int>)
    ensures Sum(s + t) == Sum(s) + Sum(t)
  {
    if t == [] {
      assert s + t == s;
    } else {
      SumConcat(s, t[..|t| - 1]);
      assert (s + t)[..|s + t| - 1] == s + t[..|t| - 1];
    }
  }

  /** One more sample of a left-to-right scan: how the running sum, minimum
      and maximum of a prefix extend to the next sample. */
  lemma ScanStep(s: seq<int>, i: nat)
    requires i < |s|
    ensures Sum(s[..i + 1]) == Sum(s[..i]) + s[i]
    ensures i > 0 ==> MinOf(s[..i + 1]) == if s[i] < MinOf(s[..i]) then s[i] else MinOf(s[..i])
    ensures i > 0 ==> MaxOf(s[..i + 1]) == if MaxOf(s[..i]) < s[i] then s[i] else MaxOf(s[..i])
  {
    assert s[..i + 1][..i] == s[..i];
  }

  /** The average over the whole window: the sum divided by the window size,
      truncated as C++ integer division does. */
  function AverageOf(s: seq<int>): (avg: int)
    requires |s| > 0
  {
    TruncDiv(Sum(s), |s|)
  }

  /** The average is the sum shared out evenly over the samples, with the
      remainder below one share and of the sum's sign. */
  lemma AverageRemainder(s: seq<int>)
    requires |s| > 0
    ensures Sum(s) >= 0 ==> 0 <= Sum(s) - AverageOf(s) * |s| < |s|
    ensures Sum(s) < 0 ==> -|s| < Sum(s) - AverageOf(s) * |s| <= 0
  {
  }

  /** The write cursor after `count` samples were added to a window of `size`
      slots. The cursor is wrapped lazily, just before a write, so it ranges
      over 0..size; the slot the next sample goes to is `count % size`. */
  function Cursor(count: nat, size: nat): (c: nat)
    requires size > 0
    ensures c <= size
    ensures count == 0 ==> c == 0
    ensures count > 0 ==> 1 <= c
    ensures (if c == size then 0 else c) == count % size
  {
    if count == 0 then 0
    else
      ModSucc(count - 1, size);
      (count - 1) % size + 1
  }

  /** The contents of a window of `size` slots, initially all zero, after the
      samples of `history` were written one by one, sample `j` into slot
      `j % size`. */
  function Window(history: seq<int>, size: nat): (w: seq<int>)
    requires size > 0
    ensures |w| == size
  {
    if history == [] then seq(size, _ => 0)
    else Window(history[..|history| - 1], size)[(|history| - 1) % size := history[|history| - 1]]
  }

  /** Every slot of the window holds its initial zero or one of the samples
      added: `add` writes nothing else. */
  lemma {:induction false} WindowHoldsSamples(history: seq<int>, size: nat)
    requires size > 0
    ensures forall k | 0 <= k < size :: Window(history, size)[k] == 0 || Window(history, size)[k] in history
  {
    if history != [] {
      var n := |history|;
      WindowHoldsSamples(history[..n - 1], size);
      assert forall x | x in history[..n - 1] :: x in history;
    }
  }

  // Arithmetic facts about multiplication, division and remainder that the
  // window and cursor proofs rely on.

  lemma MulMono(a: int, b: int, n: nat)
    requires a <= b
    ensures a * n <= b * n
  {
  }

  lemma MulSmall(m: int, d: int)
    requires m > 0 && -m < m * d < m
    ensures d == 0
  {
    if d > 0 {
      MulMono(1, d, m);
    } else if d < 0 {
      MulMono(d, -1, m);
    }
  }

  lemma DivModUnique(x: int, m: int, q: int, r: int)
    requires m > 0 && 0 <= r < m && x == m * q + r
    ensures x / m == q && x % m == r
  {
    assert m * (q - x / m) == x % m - r;
    MulSmall(m, q - x / m);
  }

  lemma ModSucc(x: nat, m: nat)
    requires m > 0
    ensures x % m == m - 1 ==> (x + 1) % m == 0
    ensures x % m < m - 1 ==> (x + 1) % m == x % m + 1
  {
    if x % m == m - 1 {
      DivModUnique(x + 1, m, x / m + 1, 0);
    } else {
      DivModUnique(x + 1, m, x / m, x % m + 1);
    }
  }

  /** Two numbers less than `m` apart have different remainders modulo `m`. */
  lemma ModDistinct(a: nat, b: nat, m: nat)
    requires m > 0 && a < b < a + m
    ensures a % m != b % m
  {
    assert b - a == m * (b / m - a / m) + (b % m - a % m);
    if a % m == b % m {
      MulSmall(m, b / m - a / m);
    }
  }

  /** A truncated quotient of a number between `n * lo` and `n * hi` lies
      between `lo` and `hi`. */
  lemma TruncDivBetween(a: int, n: int, lo: int, hi: int)
    requires n > 0 && n * lo <= a <= n * hi
    ensures lo <= TruncDiv(a, n) <= hi
  {
    var q := TruncDiv(a, n);
    assert (lo - 1) * n == n * lo - n;
    assert (hi + 1) * n == n * hi + n;
    if q < lo {
      MulMono(q, lo - 1, n);
    }
    if q > hi {
      MulMono(hi + 1, q, n);
    }
  }

  /** Each of the last `size` samples added is still in the window, at slot
      `j % size`: adding a sample evicts exactly the oldest one. */
  lemma {:induction false} WindowKeepsRecent(history: seq<int>, size: nat, j: nat)
    requires size > 0
    requires j < |history| && |history| - size <= j
    ensures Window(history, size)[j % size] == history[j]
  {
    var n := |history|;
    if j < n - 1 {
      var init := history[..n - 1];
      WindowKeepsRecent(init, size, j);
      ModDistinct(j, n - 1, size);
    }
  }

  /** Until the window has been filled once, the slots not yet written still
      hold the zero they were initialised with. */
  lemma {:induction false} WindowZeroUntilFilled(history: seq<int>, size: nat, k: nat)
    requires size > 0
    requires |history| <= k < size
    ensures Window(history, size)[k] == 0
  {
    var n := |history|;
    if n > 0 {
      WindowZeroUntilFilled(history[..n - 1], size, k);
      DivModUnique(n - 1, size, 0, n - 1);
      assert (n - 1) % size != k;
    }
  }

  /** Every sample is at least `lo`, so the sum is at least `|s| * lo`. */
  lemma {:induction false} SumAtLeast(s: seq<int>, lo: int)
    requires forall k | 0 <= k < |s| :: lo <= s[k]
    ensures |s| * lo <= Sum(s)
  {
    if s != [] {
      SumAtLeast(s[..|s| - 1], lo);
      assert (|s| - 1) * lo + lo == |s| * lo;
    }
  }

  /** Every sample is at most `hi`, so the sum is at most `|s| * hi`. */
  lemma {:induction false} SumAtMost(s: seq<int>, hi: int)
    requires forall k | 0 <= k < |s| :: s[k] <= hi
    ensures Sum(s) <= |s| * hi
  {
    if s != [] {
      SumAtMost(s[..|s| - 1], hi);
      assert (|s| - 1) * hi + hi == |s| * hi;
    }
  }

  /** The truncated average lies between the minimum and the maximum, so the
      three cached statistics are always mutually consistent. */
  lemma AverageBetweenMinMax(s: seq<int>)
    requires |s| > 0
    ensures MinOf(s) <= AverageOf(s) <= MaxOf(s)
  {
    SumAtLeast(s, MinOf(s));
    SumAtMost(s, MaxOf(s));
    TruncDivBetween(Sum(s), |s|, MinOf(s), MaxOf(s));
  }

  class SampleStats {
    /** The window size (`SIZE` in the template). */
    const size: nat
    /** The samples, one per slot, zero-initialised. */
    const data: array<int>
    /** The slot written by the previous `Add`, plus one; wrapped lazily. */
    var currentIndex: int
    var cachedAvg: int
    var cachedMin: int
    var cachedMax: int
    /** Set by every `Add`; the cached statistics are valid while it is clear. */
    var recomputeNeeded: bool

    /** Every sample ever added, oldest first. */
    ghost var history: seq<int>

    ghost predicate Valid()
      reads this, data
    {
      && size > 0
      && data.Length == size
      && currentIndex == Cursor(|history|, size)
      && data[..] == Window(history, size)
      && (!recomputeNeeded ==>
            && cachedAvg == AverageOf(data[..])
            && cachedMin == MinOf(data[..])
            && cachedMax == MaxOf(data[..]))
    }

    /** A window of `size` zeros, with the statistics marked stale. */
    constructor (size: nat)
      requires size > 0
      ensures Valid() && fresh(data)
      ensures this.size == size && data[..] == seq(size, _ => 0)
      ensures currentIndex == 0 && recomputeNeeded && history == []
    {
      this.size := size;
      data := new int[size](_ => 0);
      currentIndex := 0;
      recomputeNeeded := true;
      history := [];
    }

    /** Overwrites the oldest sample with `value` and marks the statistics stale. */
    method Add(value: int)
      requires Valid()
      modifies this, data
      ensures Valid()
      ensures history == old(history) + [value]
      ensures var slot := if old(currentIndex) == size then 0 else old(currentIndex);
              && data[..] == old(data[..])[slot := value]
              && currentIndex == slot + 1
      ensures 1 <= currentIndex <= size
      ensures recomputeNeeded
      ensures cachedAvg == old(cachedAvg) && cachedMin == old(cachedMin) && cachedMax == old(cachedMax)
    {
      ghost var n := |history|;
      if currentIndex == size {
        currentIndex := 0;
      }
      data[currentIndex] := value;
      currentIndex := currentIndex + 1;
      recomputeNeeded := true;
      history := history + [value];
      assert history[..n] == old(history);
    }

    /** One scan over all slots that recomputes the three statistics. */
    method RecomputeStats()
      requires Valid()
      modifies this
      ensures Valid() && !recomputeNeeded
      ensures cachedAvg == AverageOf(data[..])
      ensures cachedMin == MinOf(data[..])
      ensures cachedMax == MaxOf(data[..])
      ensures currentIndex == old(currentIndex) && history == old(history)
    {
      var sum := 0;
      cachedMin := data[0];
      cachedMax := data[0];
      for i := 0 to size
        invariant currentIndex == old(currentIndex) && history == old(history)
        invariant recomputeNeeded == old(recomputeNeeded)
        invariant sum == Sum(data[..i])
        invariant i == 0 ==> cachedMin == data[0] && cachedMax == data[0]
        invariant i > 0 ==> cachedMin == MinOf(data[..i]) && cachedMax == MaxOf(data[..i])
      {
        var v := data[i];
        ScanStep(data[..], i);
        sum := sum + v;
        if v < cachedMin {
          cachedMin := v;
        }
        if cachedMax < v {
          cachedMax := v;
        }
      }
      assert data[..size] == data[..];
      cachedAvg := TruncDiv(sum, size);
      recomputeNeeded := false;
    }

    /** The average of the window, recomputed only if a sample was added since
        the last recomputation. */
    method Average() returns (avg: int)
      requires Valid()
      modifies this
      ensures Valid() && !recomputeNeeded
      ensures avg == AverageOf(data[..])
      ensures currentIndex == old(currentIndex) && history == old(history)
      ensures !old(recomputeNeeded) ==>
                cachedAvg == old(cachedAvg) && cachedMin == old(cachedMin) && cachedMax == old(cachedMax)
    {
      if recomputeNeeded {
        RecomputeStats();
      }
      avg := cachedAvg;
    }

    /** The smallest sample in the window, recomputed only if stale. */
    method Min() returns (lo: int)
      requires Valid()
      modifies this
      ensures Valid() && !recomputeNeeded
      ensures lo == MinOf(data[..])
      ensures currentIndex == old(currentIndex) && history == old(history)
      ensures !old(recomputeNeeded) ==>
                cachedAvg == old(cachedAvg) && cachedMin == old(cachedMin) && cachedMax == old(cachedMax)
    {
      if recomputeNeeded {
        RecomputeStats();
      }
      lo := cachedMin;
    }

    /** The largest sample in the window, recomputed only if stale. */
    method Max() returns (hi: int)
      requires Valid()
      modifies this
      ensures Valid() && !recomputeNeeded
      ensures hi == MaxOf(data[..])
      ensures currentIndex == old(currentIndex) && history == old(history)
      ensures !old(recomputeNeeded) ==>
                cachedAvg == old(cachedAvg) && cachedMin == old(cachedMin) && cachedMax == old(cachedMax)
    {
      if recomputeNeeded {
        RecomputeStats();
      }
      hi := cachedMax;
    }
  }

  /** Reading the statistics repeatedly, with no `Add` in between, returns the
      same values every time and leaves the samples and the cursor alone. */
  method RepeatedReads(stats: SampleStats) returns (avg1: int, avg2: int, lo1: int, lo2: int, hi1: int, hi2: int)
    requires stats.Valid()
    modifies stats
    ensures stats.Valid()
    ensures avg1 == avg2 && lo1 == lo2 && hi1 == hi2
    ensures lo1 <= avg1 <= hi1
    ensures stats.currentIndex == old(stats.currentIndex) && stats.history == old(stats.history)
  {
    avg1 := stats.Average();
    lo1 := stats.Min();
    hi1 := stats.Max();
    avg2 := stats.Average();
    lo2 := stats.Min();
    hi2 := stats.Max();
    AverageBetweenMinMax(stats.data[..]);
  }

  /** The periodic report of the render loop: the three statistics of the
      current window, read one after another. */
  method Report(stats: SampleStats) returns (avg: int, lo: int, hi: int)
    requires stats.Valid()
    modifies stats
    ensures stats.Valid()
    ensures avg == AverageOf(stats.data[..]) && lo == MinOf(stats.data[..]) && hi == MaxOf(stats.data[..])
    ensures stats.currentIndex == old(stats.currentIndex) && stats.history == old(stats.history)
  {
    avg := stats.Average();
    lo := stats.Min();
    hi := stats.Max();
  }

  /** The statistics of the two windows of the three-sample example. */
  lemma ThreeSampleStats()
    ensures AverageOf([1, 2, 3]) == 2 && MinOf([1, 2, 3]) == 1 && MaxOf([1, 2, 3]) == 3
    ensures AverageOf([10, 2, 3]) == 5 && MinOf([10, 2, 3]) == 2 && MaxOf([10, 2, 3]) == 10
  {
    assert [1, 2, 3][..2] == [1, 2] && [1, 2][..1] == [1];
    assert Sum([1, 2, 3]) == 6;
    assert [10, 2, 3][..2] == [10, 2] && [10, 2][..1] == [10];
    assert Sum([10, 2, 3]) == 15;
  }

  /** A fresh window of three filled with 1, 2 and 3. */
  method FillThree() returns (stats: SampleStats)
    ensures fresh(stats) && fresh(stats.data)
    ensures stats.Valid() && stats.size == 3
    ensures stats.data[..] == [1, 2, 3] && stats.currentIndex == 3
  {
    stats := new SampleStats(3);
    stats.Add(1);
    assert stats.data[..] == [1, 0, 0];
    stats.Add(2);
    assert stats.data[..] == [1, 2, 0];
    stats.Add(3);
  }

  /** A window of three: 1, 2, 3 give average 2, minimum 1 and maximum 3; a
      fourth sample, 10, replaces the 1 and gives 5, 2 and 10. */
  method ThreeSampleWindow() returns (avg: int, lo: int, hi: int, avg': int, lo': int, hi': int)
    ensures avg == 2 && lo == 1 && hi == 3
    ensures avg' == 5 && lo' == 2 && hi' == 10
  {
    ThreeSampleStats();
    var stats := FillThree();
    avg, lo, hi := Report(stats);
    stats.Add(10);
    assert stats.data[..] == [10, 2, 3];
    avg', lo', hi' := Report(stats);
  }
}
